=== FILE: README.md ===
# MUKER page components, modelled in Dafny

This project models the two state machines and the small pure pieces of
`js/components.js`, the MUKER site's page script:

- **`MukerSlider`**, the autoplaying carousel (module `Carousel`). The state is
  an immutable record: current index, slide and dot counts, the
  `isTransitioning` lock, whether the autoplay interval is live, the displayed
  track offset, the dots' `active` classes, the displayed progress-bar width,
  and one counter per live progress interval. Every callback the browser would
  run is an `Event`: the 800 ms release (`TransitionDone`), the 6000 ms
  autoplay interval (`AutoplayTick`), a 30 ms progress interval
  (`ProgressTick(k)`), hover (`MouseEnter`/`MouseLeave`), the arrow keys, and
  arrow and dot clicks. `Step` is the handler each one runs and `Run` folds a
  sequence of them. Widths are counted in half-percent steps (0..200), so the
  0.5 % increments are exact integers.
- **The mobile menu** wired by `ComponentLoader.initMobileMenu` (module
  `MobileMenu`). The state is the two `active` flags and the button glyph
  (`☰`/`✕`). The events are a toggle click, a nav-link click at a given
  viewport width, and a click that reaches the document, with its width and
  target.
- **Scroll effects and anchor scrolling** (module `PageScroll`). These cover
  the `scrolled` and `visible` class thresholds and the `offsetTop - 80`
  target of a same-page anchor.
- **Component loading** (module `Loader`). `loadComponent` and `loadAll` are
  modelled as traces of effects over abstract fetch outcomes: a fetch, an
  insert into a container, the header and footer post-processing, logged
  errors and the global initialisers. `Apply` gives the page content a trace
  leaves behind.

Two behaviours of the code are proved and worth knowing:

- The arrow keys and the autoplay tick do not check `isTransitioning`, but
  `updateSlider` bails out while it is set. A key pressed during a transition
  therefore moves the index while the track and dots stay on the old slide.
  "The track shows the current slide" is not an invariant of the code (see
  Findings).
- `resetAutoPlay` stops and restarts autoplay in one synchronous call. A
  running progress interval never sees autoplay stopped, so every navigation
  starts one more progress interval and cancels none. A progress interval ends
  only when it ticks while the mouse is over the track.

A failed fetch leaves its container as it was. The code inserts no fallback
markup, marks no active nav link and does not re-run scripts in the inserted
markup.

## Model

| member | source | states |
|---|---|---|
| Carousel.NextIndex | js/components.js:254-258 | the next index is always in range; from the last slide it wraps to 0, otherwise it is one more |
| Carousel.PrevIndex | js/components.js:260-264 | the previous index is always in range; from 0 it wraps to the last slide, otherwise it is one less; `next` undoes it |
| Carousel.PrevUndoesNext | js/components.js:254-264 | `prev` after `next` returns to the starting index |
| Carousel.ThreeSlidesWrap | js/components.js:254-258 | with three slides, accepted next clicks visit 1, 2 and wrap to 0 |
| Carousel.UpdateSlider | js/components.js:234-252 | during a transition nothing changes; otherwise it locks, the page displays the current slide (offset at the index, and the dot at the index, if there is one, is the only active dot), and the bar is emptied, with nothing else changed |
| Carousel.StopAutoPlay | js/components.js:284-289 | autoplay is inactive afterwards and nothing else changes |
| Carousel.StopAutoPlayIdempotent | js/components.js:284-289 | stopping twice is stopping once |
| Carousel.StartAutoPlay | js/components.js:272-282 | autoplay is active and one new progress interval starting at 0 is added; the older ones are kept |
| Carousel.ResetAutoPlay | js/components.js:291-294 | autoplay is active with one new progress interval at 0 |
| Carousel.ResetAutoPlayIsStart | js/components.js:272-294 | because start stops first, reset is the same as start |
| Carousel.ProgressTick | js/components.js:296-313 | with autoplay stopped the interval cancels itself and nothing else changes; otherwise its counter grows by one half-percent and is shown, and past 100 % it wraps to 0 without repainting |
| Carousel.TicksFillBar | js/components.js:300-312 | while autoplay runs, n ticks of an interval that stays within 100 % show its counter plus n, so 200 ticks from 0 fill the bar |
| Carousel.Next | js/components.js:254-258 | the index wraps forward; during a transition the display and bar are left behind, otherwise it shows the new slide with an empty bar; autoplay restarts; slide count, dot count and buttons are unchanged |
| Carousel.Prev | js/components.js:260-264 | the index wraps backward; during a transition the display and bar are left behind, otherwise it shows the new slide with an empty bar; autoplay restarts; slide count, dot count and buttons are unchanged |
| Carousel.GoToSlide | js/components.js:266-270 | the index is the argument, unchecked; the display follows, and the bar is emptied, only outside a transition; autoplay restarts; slide count, dot count and buttons are unchanged |
| Carousel.Construct | js/components.js:179-202 | no track gives no slider; no progress bar makes the first update throw; otherwise the first slide is displayed, locked, with autoplay and one progress interval running, and the slider keeps the slide count, dot count and arrow buttons found |
| Carousel.ConstructValid | js/components.js:187-201 | a slider built with at least one slide and no more dots than slides starts with its index in range and the bar within 100 % |
| Carousel.Step | js/components.js:204-313 | the left key and an accepted prev click go to the previous index (wrapping); the right key, an accepted next click and a live autoplay tick go to the next index (wrapping); an accepted click on dot i goes to i; only navigation inputs move the index; only `TransitionDone` clears the lock and every other event keeps it; a lock is taken only by a navigation input, which then displays the current slide with an empty bar; slide count, dot count and buttons never change |
| Carousel.StepPreservesValid | js/components.js:204-313 | every event keeps the index in range and every width within 100 % |
| Carousel.RunPreservesValid | js/components.js:204-313 | the same holds after any sequence of events |
| Carousel.DotBeyondSlidesBreaksRange | js/components.js:217-221 | `goToSlide` does not check its argument, so with more dots than slides a dot click leaves the index out of range |
| Carousel.ClicksDroppedWhileTransitioning | js/components.js:205-221 | arrow and dot clicks during a transition leave the state unchanged |
| Carousel.StepKeepsDisplayWhenIdle | js/components.js:204-252 | outside a transition every event leaves the page showing the current slide |
| Carousel.KeyDuringTransitionDesyncs | js/components.js:228-235 | an arrow key during a transition changes the index but not the displayed offset, so the display is wrong |
| Carousel.AutoplayDuringTransitionDesyncs | js/components.js:276-278 | an autoplay tick during a transition likewise leaves the display on the old slide |
| Carousel.DisplayNotInvariant | js/components.js:195-235 | right after construction, a right-arrow key moves the index to 1 while the track stays at 0 % |
| Carousel.StepGuarded | js/components.js:205-221 | corrected dispatch: every navigation input is dropped during a transition, and every other event behaves as in the code |
| Carousel.GuardedStepKeepsDisplay | js/components.js:205-221 | with the guard, one event keeps the slider valid and displaying the current slide |
| Carousel.GuardedRunKeepsDisplay | js/components.js:205-221 | with the guard, the page shows the current slide after any sequence of events |
| Carousel.HoverPausesAutoplay | js/components.js:223-225 | mouse enter stops autoplay, an autoplay tick then does nothing, and mouse leave restarts it |
| Carousel.PausedStaysPut | js/components.js:223-231 | while paused, timers and other keys neither move the slide nor restart autoplay |
| Carousel.NavigationAddsProgressInterval | js/components.js:291-304 | every navigation that takes effect adds one progress interval and cancels none |
| Carousel.ProgressIntervalEndsOnlyWhenStopped | js/components.js:300-304 | a progress interval disappears only on its own tick while autoplay is stopped |
| MobileMenu.RunWired | js/components.js:44-85 | without handlers there is no menu to change; with them, clicks keep a consistent menu consistent and equal `active` flags equal |
| MobileMenu.InitThenClicks | js/components.js:41-85 | after initialisation, clicks do nothing when the button or nav list is missing, and keep a consistent menu consistent when both exist |
| MobileMenu.Toggle | js/components.js:48-59 | both `active` flags flip together and the glyph is the cross exactly when the nav is open |
| MobileMenu.ToggleTwice | js/components.js:48-59 | two toggles restore a menu whose glyph matches its nav |
| MobileMenu.LinkClick | js/components.js:62-70 | a link click closes the menu at widths up to 768 and changes nothing on wider viewports |
| MobileMenu.DocumentClick | js/components.js:73-82 | a document click changes the menu only when it is narrow, open and clicked outside both elements, and then closes it |
| MobileMenu.Step | js/components.js:47-82 | every event keeps equal flags equal and a consistent glyph consistent; only a toggle click opens the menu |
| MobileMenu.Run | js/components.js:47-82 | equal flags and a consistent glyph are kept over any sequence of clicks |
| MobileMenu.ClosedWithoutToggle | js/components.js:61-82 | a closed menu stays closed under any clicks that are not toggle clicks |
| MobileMenu.WideViewportOnlyToggles | js/components.js:61-82 | on viewports wider than 768 link and document clicks never change the menu |
| MobileMenu.ToggleScenario | js/components.js:48-59 | one toggle shows the cross with both flags set; a second restores the closed menu |
| PageScroll.OnScroll | js/components.js:110-129 | each element present is marked exactly when the offset is past its threshold (100 for the header, 300 for the button); absent elements stay absent |
| PageScroll.LastOffsetDecides | js/components.js:110-129 | after any sequence of scroll events the classes depend only on the last offset, with no hysteresis |
| PageScroll.OnScrollIdempotent | js/components.js:110-129 | handling the same offset twice is handling it once |
| PageScroll.HeaderScenario | js/components.js:113-117 | at 150 the header is marked, back at 50 it is unmarked |
| PageScroll.ClickAnchor | js/components.js:134-146 | only `#`-links other than the bare `#` are intercepted; a found target is scrolled to 80 above its offset, a missing one does nothing |
| PageScroll.BareHashNotIntercepted | js/components.js:134 | the bare `#` and links that do not start with `#` are left to the browser |
| Loader.LoadComponent | js/components.js:10-37 | an unknown name does nothing; a known one fetches its file exactly once, inserts the body into its own container only on success with the container present, runs the header or footer post-processing only then, and logs its own name on failure; the menu and year post-processing come right after the insert; no effect occurs twice |
| Loader.LoadComponentEffect | js/components.js:10-37 | an unknown name or a failed fetch leaves the page unchanged; a success replaces exactly its own container's content |
| Loader.LoadAll | js/components.js:95-106 | the three global initialisers always run, and only at the end, whatever the fetches yield |
| Loader.LoadAllOrder | js/components.js:95-106 | the header is fetched first, every header effect precedes the footer fetch, and nothing of the header or any other fetch follows it |
| Loader.FailedHeaderStillLoadsFooter | js/components.js:95-106 | a failed header fetch, whether a non-ok status or a rejection, skips the menu and leaves its container, while the footer still loads and sets the year |
| Loader.Apply | js/components.js:19-22 | applying a trace never adds or removes a container |
| Loader.ApplyConcat | js/components.js:95-106 | applying two traces one after the other is applying their concatenation |

## Findings

| source | as written | input that shows it | evidently intended | confidence | as-written member | corrected member |
|---|---|---|---|---|---|---|
| js/components.js:228-231 | the keydown handler calls `prev`/`next` without checking `isTransitioning`, while `updateSlider` bails out during a transition | three slides, a right-arrow key within 800 ms of construction: the index becomes 1, the track stays at 0 % and dot 0 stays active | navigation input is dropped during a transition, as the arrow and dot clicks already do | medium, not executed | Carousel.KeyDuringTransitionDesyncs | Carousel.GuardedRunKeepsDisplay |

`Carousel.Step` and `Carousel.Run` model the code as written. `Carousel.StepGuarded`
and `Carousel.RunGuarded` are the corrected dispatch, in which the displayed
slide always follows the index. The same gap exists for the autoplay tick
(`Carousel.AutoplayDuringTransitionDesyncs`). With real timings it cannot
happen, because every transition restarts the 6000 ms interval.

## Left out

- `fetch`, `innerHTML`, the element lookups and `console` output. A fetch is an abstract `Response`; a container, button or nav list is present or absent.
- Wall-clock timing (800 ms, 6000 ms, 30 ms). Timers are events that may arrive in any order, so interleavings that real timing rules out are included.
- The two `DOMContentLoaded` handlers and the 500 ms delay before the slider is built (js/components.js:321-331). These are an event-loop race between unrelated tasks.
- `updateCopyrightYear` (js/components.js:88-93) is kept only as the `UpdateCopyrightYear` action, because the year comes from the clock.
- `initScrollTopButton` (js/components.js:150-174) is kept only as the `InitScrollTopButton` action. Its click scrolls to the constant 0, and its press and release transforms are cosmetic.
- The browser's smooth-scroll animation and its clamping of a negative scroll target.
- Carousel.Construct: requires at least one slide when the track and progress bar exist. With no slides the source's `%` by zero yields NaN, which an integer index cannot represent.
- The `progress` field of the slider, which is only ever set to 0 and never read.
- Component names that are keys of JavaScript's object prototype. The code only calls `loadComponent` with `header` and `footer`.
- A selector `href` that `querySelector` rejects as invalid (it throws inside the click handler), and anchors added after `initSmoothScroll` ran, which get no handler.
- Elements that appear or disappear between events. The scroll listener looks them up on every event, but the model fixes which ones exist. Likewise, an inserted fragment does not create containers in the model.
- Several slider or loader instances on one page.

=== FILE: carousel.dfy ===
/**
  The autoplaying carousel `MukerSlider` of js/components.js.

  The slider is an immutable record; every callback the browser would run
  (arrow, dot and key handlers, hover, the 6000 ms autoplay interval, the
  30 ms progress intervals and the 800 ms transition release) is an `Event`
  and `Step` is the transition it performs. Wall-clock time is not modelled:
  any event may arrive in any state, and a timer event whose timer is not
  live changes nothing.
*/
module Carousel {

  /** Width of a full progress bar in half-percent steps (each tick adds 0.5 %). */
  const FullBar: nat := 200

  /** Shift of the slide track per slide, in percent of the track width. */
  const SlideWidth: nat := 100

  datatype Slider = Slider(
    total: nat,          // totalSlides, fixed at construction
    dotCount: nat,       // number of dot indicators found on the page
    hasPrev: bool,       // the previous-arrow element exists
    hasNext: bool,       // the next-arrow element exists
    index: nat,          // currentIndex
    transitioning: bool, // isTransitioning; the 800 ms release is pending exactly while it is set
    autoplay: bool,      // autoPlayInterval is not null
    offset: nat,         // displayed track shift: translateX(-offset %)
    dots: seq<bool>,     // whether each dot carries the `active` class
    bar: nat,            // displayed progress-bar width, in half-percent steps
    timers: seq<nat>)    // the local `width` counter of every live progress interval

  /** Outcome of constructing the slider on a page. */
  datatype Boot =
    | Absent             // no slider track: the constructor returns early
    | Broken             // no progress bar: the first update throws, nothing is wired
    | Running(slider: Slider)

  datatype Event =
    | TransitionDone     // the 800 ms release timer fires
    | AutoplayTick       // the 6000 ms autoplay interval fires
    | ProgressTick(timer: nat) // the progress interval at this position fires
    | MouseEnter
    | MouseLeave
    | KeyLeft
    | KeyRight
    | KeyOther
    | ClickPrev
    | ClickNext
    | ClickDot(dot: nat)

  /** The invariant the source relies on: a range-checked index and a bar within 100 %. */
  predicate Valid(s: Slider)
  {
    && 0 < s.total
    && s.dotCount <= s.total
    && s.index < s.total
    && |s.dots| == s.dotCount
    && s.bar <= FullBar
    && forall k :: 0 <= k < |s.timers| ==> s.timers[k] <= FullBar
  }

  /** The page shows the current slide: track offset and active dot both follow the index. */
  predicate Displays(s: Slider)
  {
    && s.offset == s.index * SlideWidth
    && |s.dots| == s.dotCount
    && forall j :: 0 <= j < |s.dots| ==> (s.dots[j] <==> j == s.index)
  }

  /** Navigation inputs: the ones that call next, prev or goToSlide. */
  predicate IsNavigation(e: Event)
  {
    e.AutoplayTick? || e.KeyLeft? || e.KeyRight? || e.ClickPrev? || e.ClickNext? || e.ClickDot?
  }

  // ---------------------------------------------------------------------
  // Index arithmetic
  // ---------------------------------------------------------------------

  /** Index after `next`. The dividend is never negative, so Dafny's `%`
      agrees with JavaScript's truncating remainder. */
  function NextIndex(i: nat, n: nat): (r: nat)
    requires 0 < n
    ensures r < n
    ensures i < n ==> (r == 0 <==> i == n - 1)
    ensures i + 1 < n ==> r == i + 1
  {
    (i + 1) % n
  }

  /** Index after `prev`; `n` is added before the remainder so that 0 wraps to n - 1. */
  function PrevIndex(i: nat, n: nat): (r: nat)
    requires 0 < n
    ensures r < n
    ensures i < n ==> (r == n - 1 <==> i == 0)
    ensures 0 < i < n ==> r == i - 1
    ensures i < n ==> NextIndex(r, n) == i
  {
    (i - 1 + n) % n
  }

  lemma PrevUndoesNext(i: nat, n: nat)
    requires i < n
    ensures PrevIndex(NextIndex(i, n), n) == i
  {
  }

  // ---------------------------------------------------------------------
  // Display update
  // ---------------------------------------------------------------------

  /** Classes of the dots: only the dot at `i` is active. */
  function DotsFor(i: nat, count: nat): (r: seq<bool>)
    ensures |r| == count
    ensures forall j :: 0 <= j < count ==> (r[j] <==> j == i)
  {
    seq(count, j => j == i)
  }

  /** `updateSlider` with `updateDots` and `resetProgress`: bails out while a
      transition runs; otherwise locks, moves the track, marks the dots and
      empties the progress bar. Only `TransitionDone` releases the lock. */
  function UpdateSlider(s: Slider): (r: Slider)
    ensures s.transitioning ==> r == s
    ensures !s.transitioning ==> r.transitioning && Displays(r) && r.bar == 0
    ensures r.(transitioning := s.transitioning, offset := s.offset, dots := s.dots, bar := s.bar) == s
  {
    if s.transitioning then s
    else s.(transitioning := true, offset := s.index * SlideWidth, dots := DotsFor(s.index, s.dotCount), bar := 0)
  }

  // ---------------------------------------------------------------------
  // Autoplay
  // ---------------------------------------------------------------------

  /** `stopAutoPlay`: clears the autoplay interval if there is one. */
  function StopAutoPlay(s: Slider): (r: Slider)
    ensures !r.autoplay
    ensures r.(autoplay := s.autoplay) == s
  {
    s.(autoplay := false)
  }

  /** `startAutoPlay`: stops any running autoplay, then starts a new autoplay
      interval and a new progress interval whose counter starts at 0. The
      progress intervals already running are not cancelled. */
  function StartAutoPlay(s: Slider): (r: Slider)
    ensures r.autoplay
    ensures r.timers == s.timers + [0]
    ensures r.(autoplay := s.autoplay, timers := s.timers) == s
  {
    var stopped := StopAutoPlay(s);
    stopped.(autoplay := true, timers := stopped.timers + [0])
  }

  /** `resetAutoPlay`: stop, then start. */
  function ResetAutoPlay(s: Slider): (r: Slider)
    ensures r.autoplay
    ensures r.timers == s.timers + [0]
  {
    StartAutoPlay(StopAutoPlay(s))
  }

  lemma StopAutoPlayIdempotent(s: Slider)
    ensures StopAutoPlay(StopAutoPlay(s)) == StopAutoPlay(s)
  {
  }

  /** Stopping first makes no difference: `resetAutoPlay` is `startAutoPlay`. */
  lemma ResetAutoPlayIsStart(s: Slider)
    ensures ResetAutoPlay(s) == StartAutoPlay(s)
  {
  }

  /** One firing of the progress interval at position `k` (`animateProgress`). */
  function ProgressTick(s: Slider, k: nat): (r: Slider)
    ensures k >= |s.timers| ==> r == s
    ensures k < |s.timers| && !s.autoplay ==> r == s.(timers := s.timers[..k] + s.timers[k + 1..])
    ensures k < |s.timers| && s.autoplay ==>
      && |r.timers| == |s.timers|
      && (forall j :: 0 <= j < |s.timers| && j != k ==> r.timers[j] == s.timers[j])
      && (s.timers[k] < FullBar ==> r.timers[k] == s.timers[k] + 1 && r.bar == r.timers[k])
      && (s.timers[k] >= FullBar ==> r.timers[k] == 0 && r.bar == s.bar)
      && r.(bar := s.bar, timers := s.timers) == s
  {
    if k >= |s.timers| then s
    else if !s.autoplay then s.(timers := s.timers[..k] + s.timers[k + 1..])
    else
      var width := s.timers[k] + 1;
      if width <= FullBar then s.(bar := width, timers := s.timers[k := width])
      else s.(timers := s.timers[k := 0])
  }

  /** `n` consecutive firings of the progress interval at position `k`. */
  function Ticks(s: Slider, k: nat, n: nat): Slider
    decreases n
  {
    if n == 0 then s else Ticks(ProgressTick(s, k), k, n - 1)
  }

  /** While autoplay runs, a progress interval that has not yet filled the bar
      shows one more half-percent per tick: from 0, 200 ticks reach 100 %. */
  lemma {:induction false} TicksFillBar(s: Slider, k: nat, n: nat)
    requires s.autoplay && k < |s.timers|
    requires 0 < n && s.timers[k] + n <= FullBar
    ensures Ticks(s, k, n).autoplay && |Ticks(s, k, n).timers| == |s.timers|
    ensures Ticks(s, k, n).bar == s.timers[k] + n
    ensures Ticks(s, k, n).timers[k] == s.timers[k] + n
    decreases n
  {
    var t := ProgressTick(s, k);
    if n > 1 {
      TicksFillBar(t, k, n - 1);
    }
  }

  // ---------------------------------------------------------------------
  // Navigation
  // ---------------------------------------------------------------------

  /** `next`: advance with wraparound, update the display, restart autoplay. */
  function Next(s: Slider): (r: Slider)
    requires 0 < s.total
    ensures r.index == NextIndex(s.index, s.total) && r.index < r.total
    ensures s.transitioning ==> r.transitioning && r.offset == s.offset && r.dots == s.dots
    ensures !s.transitioning ==> r.transitioning && Displays(r)
    ensures !s.transitioning ==> r.bar == 0
    ensures s.transitioning ==> r.bar == s.bar
    ensures r.total == s.total && r.dotCount == s.dotCount && r.hasPrev == s.hasPrev && r.hasNext == s.hasNext
    ensures r.autoplay && r.timers == s.timers + [0]
  {
    ResetAutoPlay(UpdateSlider(s.(index := NextIndex(s.index, s.total))))
  }

  /** `prev`: retreat with wraparound, update the display, restart autoplay. */
  function Prev(s: Slider): (r: Slider)
    requires 0 < s.total
    ensures r.index == PrevIndex(s.index, s.total) && r.index < r.total
    ensures s.transitioning ==> r.transitioning && r.offset == s.offset && r.dots == s.dots
    ensures !s.transitioning ==> r.transitioning && Displays(r)
    ensures !s.transitioning ==> r.bar == 0
    ensures s.transitioning ==> r.bar == s.bar
    ensures r.total == s.total && r.dotCount == s.dotCount && r.hasPrev == s.hasPrev && r.hasNext == s.hasNext
    ensures r.autoplay && r.timers == s.timers + [0]
  {
    ResetAutoPlay(UpdateSlider(s.(index := PrevIndex(s.index, s.total))))
  }

  /** `goToSlide`: stores the index unchecked, update the display, restart autoplay. */
  function GoToSlide(s: Slider, i: nat): (r: Slider)
    ensures r.index == i
    ensures s.transitioning ==> r.transitioning && r.offset == s.offset && r.dots == s.dots
    ensures !s.transitioning ==> r.transitioning && Displays(r)
    ensures !s.transitioning ==> r.bar == 0
    ensures s.transitioning ==> r.bar == s.bar
    ensures r.total == s.total && r.dotCount == s.dotCount && r.hasPrev == s.hasPrev && r.hasNext == s.hasNext
    ensures r.autoplay && r.timers == s.timers + [0]
  {
    ResetAutoPlay(UpdateSlider(s.(index := i)))
  }

  // ---------------------------------------------------------------------
  // Events
  // ---------------------------------------------------------------------

  /** The handler each event runs, as wired by `addEventListeners` and the timers. */
  function Step(s: Slider, e: Event): (r: Slider)
    requires 0 < s.total
    ensures r.total == s.total && r.dotCount == s.dotCount
    ensures r.hasPrev == s.hasPrev && r.hasNext == s.hasNext
    ensures !IsNavigation(e) ==> r.index == s.index
    ensures e.TransitionDone? ==> !r.transitioning
    ensures s.transitioning && !e.TransitionDone? ==> r.transitioning
    ensures !s.transitioning && r.transitioning ==> IsNavigation(e) && Displays(r) && r.bar == 0
    ensures e.KeyLeft? || (e.ClickPrev? && s.hasPrev && !s.transitioning) ==> r.index == PrevIndex(s.index, s.total)
    ensures e.KeyRight? || (e.ClickNext? && s.hasNext && !s.transitioning) || (e.AutoplayTick? && s.autoplay) ==>
      r.index == NextIndex(s.index, s.total)
    ensures e.ClickDot? && e.dot < s.dotCount && !s.transitioning ==> r.index == e.dot
  {
    match e
    case TransitionDone => s.(transitioning := false)
    case AutoplayTick => if s.autoplay then Next(s) else s
    case ProgressTick(k) => ProgressTick(s, k)
    case MouseEnter => StopAutoPlay(s)
    case MouseLeave => StartAutoPlay(s)
    case KeyLeft => Prev(s)
    case KeyRight => Next(s)
    case KeyOther => s
    case ClickPrev => if s.hasPrev && !s.transitioning then Prev(s) else s
    case ClickNext => if s.hasNext && !s.transitioning then Next(s) else s
    case ClickDot(i) => if i < s.dotCount && !s.transitioning then GoToSlide(s, i) else s
  }

  /** The state after a sequence of events. */
  function Run(s: Slider, events: seq<Event>): (r: Slider)
    requires 0 < s.total
    ensures r.total == s.total && r.dotCount == s.dotCount
    decreases |events|
  {
    if |events| == 0 then s else Run(Step(s, events[0]), events[1..])
  }

  /** The constructor followed by `init`: one display update, then autoplay. */
  function Construct(total: nat, dotCount: nat, hasPrev: bool, hasNext: bool, hasTrack: bool, hasBar: bool): (b: Boot)
    requires hasTrack && hasBar ==> 0 < total
    ensures b.Absent? <==> !hasTrack
    ensures b.Broken? <==> hasTrack && !hasBar
    ensures b.Running? ==>
      && b.slider.total == total && b.slider.dotCount == dotCount
      && b.slider.hasPrev == hasPrev && b.slider.hasNext == hasNext
      && b.slider.index == 0 && Displays(b.slider) && b.slider.bar == 0
      && b.slider.transitioning && b.slider.autoplay && b.slider.timers == [0]
  {
    if !hasTrack then Absent
    else if !hasBar then Broken
    else
      var initial := Slider(total, dotCount, hasPrev, hasNext, 0, false, false, 0, seq(dotCount, _ => false), 0, []);
      Running(StartAutoPlay(UpdateSlider(initial)))
  }

  // ---------------------------------------------------------------------
  // Properties
  // ---------------------------------------------------------------------

  /** A slider built on a page with no more dots than slides starts valid. */
  lemma ConstructValid(total: nat, dotCount: nat, hasPrev: bool, hasNext: bool)
    requires 0 < total && dotCount <= total
    ensures Construct(total, dotCount, hasPrev, hasNext, true, true).Running?
    ensures Valid(Construct(total, dotCount, hasPrev, hasNext, true, true).slider)
  {
  }

  lemma StepPreservesValid(s: Slider, e: Event)
    requires Valid(s)
    ensures Valid(Step(s, e))
  {
  }

  /** Index in range and bar within 100 % hold after every event sequence. */
  lemma {:induction false} RunPreservesValid(s: Slider, events: seq<Event>)
    requires Valid(s)
    ensures Valid(Run(s, events))
    decreases |events|
  {
    if |events| > 0 {
      StepPreservesValid(s, events[0]);
      RunPreservesValid(Step(s, events[0]), events[1..]);
    }
  }

  /** `goToSlide` does not check its argument: with more dots than slides a
      dot click puts the index out of range. */
  lemma DotBeyondSlidesBreaksRange()
    ensures var b := Construct(2, 3, true, true, true, true);
      b.Running? && !Valid(Step(Step(b.slider, TransitionDone), ClickDot(2)))
  {
  }

  /** Arrow and dot clicks during a transition are dropped. */
  lemma ClicksDroppedWhileTransitioning(s: Slider, e: Event)
    requires 0 < s.total && s.transitioning
    requires e.ClickPrev? || e.ClickNext? || e.ClickDot?
    ensures Step(s, e) == s
  {
  }

  /** Outside a transition every event keeps the page showing the current slide. */
  lemma StepKeepsDisplayWhenIdle(s: Slider, e: Event)
    requires Valid(s) && Displays(s) && !s.transitioning
    ensures Displays(Step(s, e))
  {
  }

  /** The arrow keys are not guarded: during a transition they move the index
      while `updateSlider` bails out, so the track and dots show another slide. */
  lemma KeyDuringTransitionDesyncs(s: Slider)
    requires Valid(s) && Displays(s) && s.transitioning && 1 < s.total
    ensures Step(s, KeyRight).index != s.index
    ensures Step(s, KeyRight).offset == s.offset
    ensures !Displays(Step(s, KeyRight))
    ensures Step(s, KeyLeft).index != s.index
    ensures !Displays(Step(s, KeyLeft))
  {
  }

  /** The same holds for an autoplay tick during a transition. */
  lemma AutoplayDuringTransitionDesyncs(s: Slider)
    requires Valid(s) && Displays(s) && s.transitioning && s.autoplay && 1 < s.total
    ensures !Displays(Step(s, AutoplayTick))
  {
  }

  /** So "the track shows the current slide" is not an invariant of the code:
      a right-arrow key pressed within 800 ms of construction leaves slide 0 on screen. */
  lemma DisplayNotInvariant()
    ensures var b := Construct(3, 3, true, true, true, true);
      && b.Running?
      && Displays(b.slider)
      && Step(b.slider, KeyRight).index == 1
      && Step(b.slider, KeyRight).offset == 0
      && !Displays(Step(b.slider, KeyRight))
  {
  }

  /** Corrected dispatch: every navigation input is dropped during a transition,
      as the arrow and dot clicks already are. */
  function StepGuarded(s: Slider, e: Event): (r: Slider)
    requires 0 < s.total
    ensures s.transitioning && IsNavigation(e) ==> r == s
    ensures !(s.transitioning && IsNavigation(e)) ==> r == Step(s, e)
  {
    if s.transitioning && IsNavigation(e) then s else Step(s, e)
  }

  function RunGuarded(s: Slider, events: seq<Event>): (r: Slider)
    requires 0 < s.total
    ensures r.total == s.total
    decreases |events|
  {
    if |events| == 0 then s else RunGuarded(StepGuarded(s, events[0]), events[1..])
  }

  lemma GuardedStepKeepsDisplay(s: Slider, e: Event)
    requires Valid(s) && Displays(s)
    ensures Valid(StepGuarded(s, e)) && Displays(StepGuarded(s, e))
  {
  }

  /** With the guard, the track and dots show the current slide after every event sequence. */
  lemma {:induction false} GuardedRunKeepsDisplay(s: Slider, events: seq<Event>)
    requires Valid(s) && Displays(s)
    ensures Displays(RunGuarded(s, events))
    decreases |events|
  {
    if |events| > 0 {
      GuardedStepKeepsDisplay(s, events[0]);
      GuardedRunKeepsDisplay(StepGuarded(s, events[0]), events[1..]);
    }
  }

  /** Hover pauses autoplay; leaving resumes it; a tick while paused does nothing. */
  lemma HoverPausesAutoplay(s: Slider)
    requires 0 < s.total
    ensures !Step(s, MouseEnter).autoplay
    ensures Step(Step(s, MouseEnter), AutoplayTick) == Step(s, MouseEnter)
    ensures Step(Step(s, MouseEnter), MouseLeave).autoplay
  {
  }

  /** Inputs that neither resume autoplay nor navigate by hand. */
  predicate IsPassive(e: Event)
  {
    e.TransitionDone? || e.AutoplayTick? || e.ProgressTick? || e.MouseEnter? || e.KeyOther?
  }

  /** While paused, the slide stays put until the mouse leaves or the user
      navigates (keys and clicks restart autoplay through `resetAutoPlay`). */
  lemma {:induction false} PausedStaysPut(s: Slider, events: seq<Event>)
    requires 0 < s.total && !s.autoplay
    requires forall i :: 0 <= i < |events| ==> IsPassive(events[i])
    ensures Run(s, events).index == s.index
    ensures !Run(s, events).autoplay
    decreases |events|
  {
    if |events| > 0 {
      PausedStaysPut(Step(s, events[0]), events[1..]);
    }
  }

  /** `resetAutoPlay` stops and restarts in one go, so the progress intervals
      already running never see autoplay stopped: every navigation adds one
      interval and none is cancelled. */
  lemma NavigationAddsProgressInterval(s: Slider, e: Event)
    requires 0 < s.total && IsNavigation(e)
    requires Step(s, e) != s
    ensures Step(s, e).timers == s.timers + [0]
  {
  }

  /** A progress interval is cancelled only by its own tick while autoplay is stopped. */
  lemma ProgressIntervalEndsOnlyWhenStopped(s: Slider, e: Event)
    requires 0 < s.total
    requires |Step(s, e).timers| < |s.timers|
    ensures e.ProgressTick? && e.timer < |s.timers| && !s.autoplay
  {
  }

  /** Three slides: three accepted `next` clicks go 0, 1, 2 and wrap back to 0. */
  lemma ThreeSlidesWrap()
    ensures var b := Construct(3, 3, true, true, true, true);
      && b.Running?
      && Run(b.slider, [TransitionDone, ClickNext]).index == 1
      && Run(b.slider, [TransitionDone, ClickNext, TransitionDone, ClickNext]).index == 2
      && Run(b.slider, [TransitionDone, ClickNext, TransitionDone, ClickNext, TransitionDone, ClickNext]).index == 0
  {
  }
}

=== FILE: loader.dfy ===
/**
  `ComponentLoader.loadComponent` and `ComponentLoader.loadAll` of
  js/components.js, as the trace of effects they perform for given fetch
  outcomes. The page is a map from the id of each container that exists to
  its content.
*/
module Loader {

  /** A loadable fragment: the container it fills and the file it comes from. */
  datatype Component = Component(containerId: string, file: string)

  const HeaderName: string := "header"
  const FooterName: string := "footer"
  const HeaderComponent := Component("header-container", "components/header.html")
  const FooterComponent := Component("footer-container", "components/footer.html")

  /** The fixed table of known components. */
  function Components(): map<string, Component>
  {
    map[HeaderName := HeaderComponent, FooterName := FooterComponent]
  }

  /** What `fetch` yields: a success with its body, a non-ok status, or a
      rejection (network failure, or failure to read the body). */
  datatype Response = Ok(body: string) | NotOk(status: int) | Rejected

  datatype Action =
    | Fetch(file: string)
    | Insert(containerId: string, html: string)
    | InitMobileMenu
    | UpdateCopyrightYear
    | LogError(component: string)
    | InitScrollEffects
    | InitSmoothScroll
    | InitScrollTopButton

  /** The effects of `loadComponent(name)` when the fetch yields `response`
      and the containers in `present` exist. Errors are caught and logged. */
  function LoadComponent(name: string, response: Response, present: set<string>): (trace: seq<Action>)
    ensures name !in Components() ==> trace == []
    ensures name in Components() ==>
      && 0 < |trace| && trace[0] == Fetch(Components()[name].file)
      && forall i :: 0 < i < |trace| ==> !trace[i].Fetch?
    ensures name in Components() && response.Ok? && Components()[name].containerId in present ==>
      Insert(Components()[name].containerId, response.body) in trace
    ensures forall a :: a in trace && a.Insert? ==>
      && name in Components() && response.Ok? && Components()[name].containerId in present
      && a == Insert(Components()[name].containerId, response.body)
    ensures InitMobileMenu in trace <==> name == HeaderName && response.Ok? && HeaderComponent.containerId in present
    ensures UpdateCopyrightYear in trace <==> name == FooterName && response.Ok? && FooterComponent.containerId in present
    ensures LogError(name) in trace <==> name in Components() && !response.Ok?
    ensures forall i :: 0 <= i < |trace| && (trace[i] == InitMobileMenu || trace[i] == UpdateCopyrightYear) ==>
      1 < i && trace[i - 1].Insert?
    ensures forall i :: 0 <= i < |trace| ==> !IsGlobalInit(trace[i])
    ensures forall i, j :: 0 <= i < j < |trace| ==> trace[i] != trace[j]
    ensures forall a :: a in trace && a.LogError? ==> a == LogError(name)
  {
    if name !in Components() then []
    else
      var comp := Components()[name];
      [Fetch(comp.file)] +
      match response
      case Ok(html) =>
        if comp.containerId in present then
          [Insert(comp.containerId, html)]
          + (if name == HeaderName then [InitMobileMenu] else [])
          + (if name == FooterName then [UpdateCopyrightYear] else [])
        else []
      case _ => [LogError(name)]
  }

  predicate IsGlobalInit(a: Action)
  {
    a.InitScrollEffects? || a.InitSmoothScroll? || a.InitScrollTopButton?
  }

  /** The effects that belong to loading the header. */
  predicate IsHeaderAction(a: Action)
  {
    || a == Fetch(HeaderComponent.file)
    || (a.Insert? && a.containerId == HeaderComponent.containerId)
    || a == InitMobileMenu
    || a == LogError(HeaderName)
  }

  /** The page after the inserts of a trace: each replaces one container's content. */
  function Apply(page: map<string, string>, trace: seq<Action>): (r: map<string, string>)
    ensures r.Keys == page.Keys
    decreases |trace|
  {
    if |trace| == 0 then page
    else
      var next := match trace[0]
        case Insert(id, html) => if id in page then page[id := html] else page
        case _ => page;
      Apply(next, trace[1..])
  }

  lemma {:induction false} ApplyWithoutInsert(page: map<string, string>, trace: seq<Action>)
    requires forall i :: 0 <= i < |trace| ==> !trace[i].Insert?
    ensures Apply(page, trace) == page
    decreases |trace|
  {
    if |trace| > 0 {
      ApplyWithoutInsert(page, trace[1..]);
    }
  }

  /** An unknown name or a failed fetch leaves the page as it was; a success
      replaces the content of the component's own container and nothing else. */
  lemma LoadComponentEffect(name: string, response: Response, page: map<string, string>)
    ensures name !in Components() || !response.Ok? ==>
      Apply(page, LoadComponent(name, response, page.Keys)) == page
    ensures name in Components() && response.Ok? && Components()[name].containerId in page ==>
      Apply(page, LoadComponent(name, response, page.Keys)) == page[Components()[name].containerId := response.body]
  {
    var trace := LoadComponent(name, response, page.Keys);
    if name in Components() && response.Ok? && Components()[name].containerId in page {
      var id := Components()[name].containerId;
      assert trace[0].Fetch? && trace[1] == Insert(id, response.body);
      ApplyWithoutInsert(page[id := response.body], trace[2..]);
      assert Apply(page, trace) == Apply(page, trace[1..]);
      assert trace[1..][1..] == trace[2..];
    } else {
      ApplyWithoutInsert(page, trace);
    }
  }

  /** `loadAll`: the header, then (once it has settled) the footer, then the
      global initialisers. Because `loadComponent` catches its errors, every
      step runs whatever the fetches yield. */
  function LoadAll(header: Response, footer: Response, present: set<string>): (trace: seq<Action>)
    ensures 3 <= |trace|
    ensures trace[|trace| - 3..] == [InitScrollEffects, InitSmoothScroll, InitScrollTopButton]
    ensures forall i :: 0 <= i < |trace| - 3 ==> !IsGlobalInit(trace[i])
  {
    LoadComponent(HeaderName, header, present)
    + LoadComponent(FooterName, footer, present)
    + [InitScrollEffects, InitSmoothScroll, InitScrollTopButton]
  }

  /** Ordering of `loadAll`: every header effect comes before the footer is
      requested, and the footer is requested exactly once, whatever the outcomes. */
  lemma LoadAllOrder(header: Response, footer: Response, present: set<string>)
    ensures var trace := LoadAll(header, footer, present);
      exists f :: 0 < f < |trace| - 3
        && trace[0] == Fetch(HeaderComponent.file)
        && trace[f] == Fetch(FooterComponent.file)
        && (forall i :: 0 <= i < f ==> IsHeaderAction(trace[i]))
        && (forall i :: f < i < |trace| ==> !IsHeaderAction(trace[i]) && !trace[i].Fetch?)
  {
    var h := LoadComponent(HeaderName, header, present);
    var ft := LoadComponent(FooterName, footer, present);
    var trace := LoadAll(header, footer, present);
    var f := |h|;
    assert trace == h + ft + [InitScrollEffects, InitSmoothScroll, InitScrollTopButton];
    assert trace[f] == ft[0];
    forall i | 0 <= i < f
      ensures IsHeaderAction(trace[i])
    {
      assert trace[i] == h[i];
    }
    forall i | f < i < |trace|
      ensures !IsHeaderAction(trace[i]) && !trace[i].Fetch?
    {
      if i < f + |ft| {
        assert trace[i] == ft[i - f];
      }
    }
  }

  /** A failed header fetch (a non-ok status or a rejection) leaves its
      container untouched, yet the footer still loads and the global
      initialisers still run. */
  lemma FailedHeaderStillLoadsFooter(header: Response, footer: Response, page: map<string, string>)
    requires HeaderComponent.containerId in page && FooterComponent.containerId in page
    requires !header.Ok? && footer.Ok?
    ensures var trace := LoadAll(header, footer, page.Keys);
      && InitMobileMenu !in trace
      && UpdateCopyrightYear in trace
      && Apply(page, trace) == page[FooterComponent.containerId := footer.body]
  {
    var inits := [InitScrollEffects, InitSmoothScroll, InitScrollTopButton];
    var h := [Fetch(HeaderComponent.file), LogError(HeaderName)];
    var ft := [Fetch(FooterComponent.file), Insert(FooterComponent.containerId, footer.body), UpdateCopyrightYear];
    LoadAllFailedHeader(header, footer, page.Keys);
    assert LoadAll(header, footer, page.Keys) == h + (ft + inits);
    ApplyConcat(page, h, ft + inits);
    ApplyWithoutInsert(page, h);
    ApplyConcat(page, ft, inits);
    ApplyWithoutInsert(Apply(page, ft), inits);
    assert Apply(page, ft) == Apply(page[FooterComponent.containerId := footer.body], [UpdateCopyrightYear]);
  }

  /** The trace of `loadAll` with a failed header fetch and a successful footer. */
  lemma LoadAllFailedHeader(header: Response, footer: Response, present: set<string>)
    requires FooterComponent.containerId in present && !header.Ok? && footer.Ok?
    ensures LoadAll(header, footer, present)
      == [Fetch(HeaderComponent.file), LogError(HeaderName)]
      + ([Fetch(FooterComponent.file), Insert(FooterComponent.containerId, footer.body), UpdateCopyrightYear]
      + [InitScrollEffects, InitSmoothScroll, InitScrollTopButton])
  {
    assert LoadComponent(HeaderName, header, present) == [Fetch(HeaderComponent.file), LogError(HeaderName)];
    assert LoadComponent(FooterName, footer, present)
      == [Fetch(FooterComponent.file), Insert(FooterComponent.containerId, footer.body), UpdateCopyrightYear];
  }

  lemma {:induction false} ApplyConcat(page: map<string, string>, a: seq<Action>, b: seq<Action>)
    ensures Apply(page, a + b) == Apply(Apply(page, a), b)
    decreases |a|
  {
    if |a| > 0 {
      assert (a + b)[1..] == a[1..] + b;
      var next := match a[0]
        case Insert(id, html) => if id in page then page[id := html] else page
        case _ => page;
      ApplyConcat(next, a[1..], b);
    } else {
      assert a + b == b;
    }
  }
}

=== FILE: mobile_menu.dfy ===
/**
  The mobile navigation menu wired by `ComponentLoader.initMobileMenu` in
  js/components.js: the `active` class of the nav list and of the menu button,
  and the button's glyph, driven by three click handlers.
*/
module MobileMenu {
  import opened Wrappers

  /** Widest viewport, in CSS pixels, at which link and outside clicks close the menu. */
  const MobileMaxWidth: int := 768

  /** The button's text: '☰' (closed) or '✕' (open). */
  datatype Glyph = Bars | Cross

  datatype Menu = Menu(navActive: bool, buttonActive: bool, glyph: Glyph)

  /** Where a click that reaches the document landed. */
  datatype Target = InNav | InButton | Elsewhere

  datatype Event =
    | ToggleClick                                  // click on the menu button
    | LinkClick(width: int)                        // click on a nav link, at this viewport width
    | DocumentClick(width: int, target: Target)    // any click that bubbles to the document

  const Closed := Menu(false, false, Bars)

  function GlyphFor(open: bool): Glyph
  {
    if open then Cross else Bars
  }

  /** The two flags agree and the glyph shows the nav's state. */
  predicate Consistent(m: Menu)
  {
    m.navActive == m.buttonActive && m.glyph == GlyphFor(m.navActive)
  }

  /** The handlers exist only when both the button and the nav list are found. */
  function InitMobileMenu(hasButton: bool, hasNav: bool, initial: Menu): (r: Option<Menu>)
    ensures r.Some? <==> hasButton && hasNav
    ensures r.Some? ==> r.value == initial
  {
    if hasButton && hasNav then Some(initial) else None
  }

  /** The button handler: both classes flip, then the glyph follows the nav. */
  function Toggle(m: Menu): (r: Menu)
    ensures r.navActive == !m.navActive && r.buttonActive == !m.buttonActive
    ensures r.glyph == Cross <==> r.navActive
  {
    Menu(!m.navActive, !m.buttonActive, GlyphFor(!m.navActive))
  }

  /** Two toggles restore a menu whose glyph matches its nav. */
  lemma ToggleTwice(m: Menu)
    requires m.glyph == GlyphFor(m.navActive)
    ensures Toggle(Toggle(m)) == m
  {
  }

  /** A nav-link click closes the menu only on a narrow viewport. */
  function LinkClick(m: Menu, width: int): (r: Menu)
    ensures width <= MobileMaxWidth ==> !r.navActive && !r.buttonActive && r.glyph == Bars
    ensures width > MobileMaxWidth ==> r == m
  {
    if width <= MobileMaxWidth then Closed else m
  }

  /** The document handler closes only a narrow, open menu, and only for a click outside both elements. */
  function DocumentClick(m: Menu, width: int, target: Target): (r: Menu)
    ensures r != m ==> width <= MobileMaxWidth && target == Elsewhere && m.navActive
    ensures width <= MobileMaxWidth && target == Elsewhere && m.navActive ==> r == Closed
  {
    if width <= MobileMaxWidth && target == Elsewhere && m.navActive then Closed else m
  }

  /** The handler an event runs. The button handler stops propagation, so a
      button click never reaches the document handler. */
  function Step(m: Menu, e: Event): (r: Menu)
    ensures m.navActive == m.buttonActive ==> r.navActive == r.buttonActive
    ensures Consistent(m) ==> Consistent(r)
    ensures !m.navActive && r.navActive ==> e.ToggleClick?
  {
    match e
    case ToggleClick => Toggle(m)
    case LinkClick(w) => LinkClick(m, w)
    case DocumentClick(w, t) => DocumentClick(m, w, t)
  }

  function Run(m: Menu, events: seq<Event>): (r: Menu)
    ensures m.navActive == m.buttonActive ==> r.navActive == r.buttonActive
    ensures Consistent(m) ==> Consistent(r)
    decreases |events|
  {
    if |events| == 0 then m else Run(Step(m, events[0]), events[1..])
  }

  /** Clicks on a page where the menu may not be wired: without handlers nothing happens. */
  function RunWired(o: Option<Menu>, events: seq<Event>): (r: Option<Menu>)
    ensures o.None? ==> r.None?
    ensures o.Some? ==> r == Some(Run(o.value, events))
    ensures o.Some? && Consistent(o.value) ==> r.Some? && Consistent(r.value)
    ensures o.Some? && o.value.navActive == o.value.buttonActive ==> r.Some? && r.value.navActive == r.value.buttonActive
  {
    match o
    case None => None
    case Some(m) => Some(Run(m, events))
  }

  /** After `initMobileMenu`, clicks change nothing when the button or the nav
      list is missing, and keep a consistent menu consistent when both exist. */
  lemma InitThenClicks(hasButton: bool, hasNav: bool, initial: Menu, events: seq<Event>)
    requires Consistent(initial)
    ensures RunWired(InitMobileMenu(hasButton, hasNav, initial), events).None? <==> !(hasButton && hasNav)
    ensures hasButton && hasNav ==> Consistent(RunWired(InitMobileMenu(hasButton, hasNav, initial), events).value)
  {
  }

  /** Only the button opens the menu: without a toggle click a closed menu stays closed. */
  lemma {:induction false} ClosedWithoutToggle(m: Menu, events: seq<Event>)
    requires !m.navActive
    requires forall i :: 0 <= i < |events| ==> !events[i].ToggleClick?
    ensures !Run(m, events).navActive
    decreases |events|
  {
    if |events| > 0 {
      ClosedWithoutToggle(Step(m, events[0]), events[1..]);
    }
  }

  /** On a wide viewport no link or document click changes the menu. */
  lemma {:induction false} WideViewportOnlyToggles(m: Menu, events: seq<Event>)
    requires forall i :: 0 <= i < |events| ==>
      (events[i].LinkClick? || events[i].DocumentClick?) && events[i].width > MobileMaxWidth
    ensures Run(m, events) == m
    decreases |events|
  {
    if |events| > 0 {
      WideViewportOnlyToggles(Step(m, events[0]), events[1..]);
    }
  }

  /** Narrow viewport: one toggle opens with '✕' on both elements, a second closes with '☰'. */
  lemma ToggleScenario()
    ensures Run(Closed, [ToggleClick]) == Menu(true, true, Cross)
    ensures Run(Closed, [ToggleClick, ToggleClick]) == Closed
  {
  }
}

=== FILE: page_scroll.dfy ===
/**
  The scroll listener installed by `ComponentLoader.initScrollEffects` and the
  anchor handler installed by `ComponentLoader.initSmoothScroll` in
  js/components.js. Scroll offsets are CSS pixels and may be fractional.
*/
module PageScroll {
  import opened Wrappers

  /** Offset past which the header gets the `scrolled` class. */
  const HeaderThreshold: real := 100.0

  /** Offset past which the scroll-to-top button gets the `visible` class. */
  const ButtonThreshold: real := 300.0

  /** Clearance left for the fixed header when scrolling to an anchor. */
  const HeaderClearance: int := 80

  /** The two classes the listener toggles; `None` when the element is not on the page. */
  datatype Classes = Classes(headerScrolled: Option<bool>, buttonVisible: Option<bool>)

  /** One scroll event at offset `y`. */
  function OnScroll(c: Classes, y: real): (r: Classes)
    ensures r.headerScrolled.Some? <==> c.headerScrolled.Some?
    ensures r.buttonVisible.Some? <==> c.buttonVisible.Some?
    ensures r.headerScrolled.Some? ==> (r.headerScrolled.value <==> y > HeaderThreshold)
    ensures r.buttonVisible.Some? ==> (r.buttonVisible.value <==> y > ButtonThreshold)
  {
    Classes(
      if c.headerScrolled.Some? then Some(y > HeaderThreshold) else None,
      if c.buttonVisible.Some? then Some(y > ButtonThreshold) else None)
  }

  /** A sequence of scroll events. */
  function ScrollThrough(c: Classes, ys: seq<real>): Classes
    decreases |ys|
  {
    if |ys| == 0 then c else ScrollThrough(OnScroll(c, ys[0]), ys[1..])
  }

  /** No hysteresis: after any history the classes depend only on the last offset. */
  lemma {:induction false} LastOffsetDecides(c: Classes, ys: seq<real>)
    requires 0 < |ys|
    ensures ScrollThrough(c, ys) == OnScroll(c, ys[|ys| - 1])
    decreases |ys|
  {
    if |ys| > 1 {
      LastOffsetDecides(OnScroll(c, ys[0]), ys[1..]);
      assert ys[1..][|ys[1..]| - 1] == ys[|ys| - 1];
    }
  }

  lemma OnScrollIdempotent(c: Classes, y: real)
    ensures OnScroll(OnScroll(c, y), y) == OnScroll(c, y)
  {
  }

  /** Scrolling to 150 px marks the header; back at 50 px it is unmarked again. */
  lemma HeaderScenario()
    ensures OnScroll(Classes(Some(false), None), 150.0).headerScrolled == Some(true)
    ensures OnScroll(OnScroll(Classes(Some(false), None), 150.0), 50.0).headerScrolled == Some(false)
  {
  }

  /** What clicking an anchor does. */
  datatype AnchorClick =
    | Default             // no handler: the browser follows the link itself
    | Prevented           // handled, but the target is not on the page: nothing moves
    | ScrollTo(top: int)  // handled: smooth scroll to this offset

  /** The anchors `a[href^="#"]:not([href="#"])` get the handler. */
  predicate Intercepted(href: string)
  {
    0 < |href| && href[0] == '#' && href != "#"
  }

  /** A click on an anchor with `href`; `offsets` gives the `offsetTop` of each
      element the selector `href` finds. */
  function ClickAnchor(href: string, offsets: map<string, int>): (r: AnchorClick)
    ensures r.Default? <==> !Intercepted(href)
    ensures r.Prevented? <==> Intercepted(href) && href !in offsets
    ensures r.ScrollTo? ==> href in offsets && r.top + HeaderClearance == offsets[href]
    ensures Intercepted(href) && href in offsets ==> r.ScrollTo?
  {
    if !Intercepted(href) then Default
    else if href in offsets then ScrollTo(offsets[href] - HeaderClearance)
    else Prevented
  }

  /** The bare "#" and links to other pages are left to the browser. */
  lemma BareHashNotIntercepted(offsets: map<string, int>, href: string)
    requires href == "#" || (0 < |href| && href[0] != '#')
    ensures ClickAnchor(href, offsets) == Default
  {
  }
}

=== FILE: wrappers.dfy ===
/** Optional values: an element the page may or may not contain. */
module Wrappers {

  datatype Option<+T> = None | Some(value: T)
}
